=== FILE: README.md ===
# VGA text-mode console

This project models the VGA text-mode console driver of a small x86 kernel.
The screen is an 80×25 grid of 16-bit cells. Each cell holds a character code
in its low byte and a colour attribute in its high byte. The attribute holds
the foreground colour in its low nibble and the background colour in its high
nibble. The driver keeps a logical cursor (row and column) and an active
attribute. It writes characters at the cursor and interprets line feed,
carriage return and tab. It scrolls the grid up by one row when the cursor
passes the last row. After every cursor move it reprograms the CRTC hardware
cursor through I/O ports 0x3D4 and 0x3D5. It also prints unsigned 32-bit
values in hex and signed 32-bit values in decimal.

The model has five modules:

- `Cells` (cells.dfy): the cell and attribute encodings and their decoders.
- `Console` (console.dfy): the driver state as an immutable `Console` value.
  - `grid`: the 2000 cells in row-major order.
  - `row`, `col`: the cursor.
  - `color`: the active attribute.
  - `io`: the trace of port writes issued so far.
  - Every driver entry point is a function from one state to the next.
- `GridLoops` (grid_loops.dfy): the scroll and clear as the driver's nested
  cell-by-cell loops. These are proved to compute the same states as the
  functional definitions.
- `ConsoleProps` (console_props.dfy): properties that relate several calls.
  - Strings are written byte by byte.
  - Once synchronised, the hardware cursor keeps showing the logical cursor.
  - A screen of newlines scrolls exactly once.
  - The kernel's start-up greeting leaves the expected screen.
- `NumberFormat` (number_format.dfy): the hex and decimal printers. Each has
  four parts:
  - a reference definition by recursion on the value;
  - a decoder that reads the digits back, with round-trip lemmas;
  - methods that follow the driver's own loops;
  - console-level functions that print the text at the cursor.

Two facts hold of the driver's states:

- `Console.Valid`: the grid has 2000 cells, the row is below 25 and the
  column is below 80. It holds from power-on and every operation keeps it.
- `Console.Synced`: the last four port writes program the cursor's
  position. It does not hold at power-on, since nothing has been written to
  the ports yet, and setting the colour or discarding a control byte does not
  establish it. It holds from the first `Init` or `Clear`, or the first `Putc`
  that is not discarded, and every operation keeps it from then on.

## Model

| member | source | states |
|---|---|---|
| Cells.EntryColor | vga.c:28-31 | the attribute's low nibble decodes to the foreground and its high nibble to the background; numerically it is fg + 16·bg |
| Cells.EntryColorOfDecoded | vga.c:28-31 | every attribute byte is the packing of its own two nibbles, so the packing of two palette colours is onto |
| Cells.DefaultAttributeIsLightGreyOnBlack | vga.c:11 | the start-up attribute 0x07 is light grey on black |
| Cells.Entry | vga.c:33-36 | the cell's low byte decodes to the character and its high byte to the attribute |
| Cells.EntryOfDecoded | vga.c:33-36 | every 16-bit cell is the entry of its own character and attribute |
| Cells.EntryInjective | vga.c:33-36 | two entries are equal if and only if their characters and attributes are equal |
| Cells.Blank | vga.c:57 | a blank cell is a space in the given attribute |
| Console.Offset | vga.c:91 | the row-major index decodes back to (row, column) by division and remainder by 80, and lies inside the 2000-cell grid |
| Console.CursorWrites | vga.c:19-26 | four writes in order: index 14 to 0x3D4, the high byte to 0x3D5, index 15 to 0x3D4, the low byte to 0x3D5; both bytes are in 0..255 and together give the position truncated to 16 bits |
| Console.Sync | vga.c:19-26 | appends exactly the cursor writes for the current position and changes nothing else |
| Console.PowerOn | vga.c:9-11 | the power-on state keeps the given grid, has the cursor at (0, 0), attribute light grey on black and an empty port trace, and satisfies the state invariant |
| Console.SetColor | vga.c:38-41 | the new attribute decodes to the given foreground and background; the grid, the cursor and the port trace are unchanged |
| Console.ScrollIfNeeded | vga.c:43-61 | no change while the row is below 25; otherwise each row 1..24 moves up one row, the last row becomes blank in the active attribute, and the row becomes 24 |
| Console.NewLine | vga.c:65-71 | column 0 and the next row, with no cell changed; on the last row, one scroll instead and the row stays 24; then one cursor update |
| Console.CarriageReturn | vga.c:73-77 | column 0 on the same row, no cell changed, one cursor update |
| Console.Printable | vga.c:91-98 | exactly the cursor cell receives the entry of the byte in the active attribute; the cursor advances, wrapping to the next row at column 80 and scrolling past the last row; one cursor update |
| Console.PutRun | vga.c:91-98 | a run of printable bytes keeps the state invariant and the attribute, and issues one cursor update per byte |
| Console.PutRunDraws | vga.c:91-98 | a run that reaches at most the row's end is drawn at consecutive cells from the cursor; the cursor moves past it, or to the next row (scrolling if needed) when the run ends exactly at column 80 |
| Console.TabWidth | vga.c:80 | a tab emits 1 to 4 spaces and ends on a multiple of 4 |
| Console.TabStop | vga.c:80-82 | the tab stop is the next multiple of 4, which is at most 80; it reaches the row end exactly from columns 76..79 |
| Console.Tab | vga.c:79-84 | a tab writes TabWidth(col) spaces from the cursor; the cursor moves to the next tab stop, wrapping (and scrolling if needed) at the row end; one cursor update per space |
| Console.Putc | vga.c:63-99 | bytes below 0x20 other than LF, CR and TAB leave the state unchanged. LF and CR go to column 0: LF on the next row (24 at most), CR on the same row with no cell changed. TAB goes to the next multiple of 4, modulo 80. A byte from 0x20 up advances the column modulo 80, moving to the next row (24 at most) on wrap. Every byte that is not discarded keeps the invariant and leaves the hardware cursor synchronised. Cursor updates: one for LF, one for CR, one for each printable byte, TabWidth(col) for a tab, and none for a discarded byte |
| Console.PutEach | vga.c:103-104 | writing a text byte by byte keeps the state invariant, the attribute and cursor synchronisation |
| Console.CString | vga.c:103 | the string is the longest NUL-free prefix, and the terminator follows it when present |
| Console.Puts | vga.c:101-105 | writing a string keeps the state invariant, the attribute and cursor synchronisation |
| Console.Clear | vga.c:107-117 | every cell becomes blank in the active attribute, the cursor goes to (0, 0), and exactly one cursor update is issued |
| Console.Init | vga.c:119-122 | from any state: all cells are blank, the cursor is at (0, 0) and synchronised, and the attribute is kept |
| GridLoops.ScrolledUpUnique | vga.c:49-58 | the scrolled grid is determined by the grid before the scroll and the attribute |
| GridLoops.ScrollInPlace | vga.c:43-61 | the nested copy loop and the last-row blanking loop compute exactly the functional scroll |
| GridLoops.ClearInPlace | vga.c:107-117 | the nested blanking loop followed by homing the cursor computes exactly the functional clear |
| ConsoleProps.PutEachConcat | vga.c:103-104 | writing a+b is writing a and then b |
| ConsoleProps.PutEachPrintable | vga.c:86-98 | bytes 0x20..0xFF written through `Putc` all take the printable branch |
| ConsoleProps.PrintableDispatch | vga.c:86-91 | bytes 0x20..0xFF, including those at 0x80 and above, take the printable branch |
| ConsoleProps.TabThroughPutc | vga.c:79-84 | a tab is exactly TabWidth(col) spaces written one by one through `Putc` |
| ConsoleProps.CStringTerminated | vga.c:103 | the bytes before the first NUL are the string, and nothing after it |
| ConsoleProps.PutsTerminated | vga.c:101-105 | `Puts` writes each byte before the terminator in order, and nothing after it |
| ConsoleProps.HardwareCursorInRange | vga.c:21-25 | in a stable state the hardware cursor (high byte · 256 + low byte) equals the logical cursor's index, which is below 2000, so the 16-bit truncation never changes it |
| ConsoleProps.PutsKeepsCursorInGrid | vga.c:101-105 | from a valid, synchronised state, after any string the cursor is inside the grid and the hardware cursor shows it |
| ConsoleProps.NewLinesWithoutScroll | vga.c:65-71 | k line feeds that stay above the last row move the cursor down k rows to column 0 and change no cell |
| ConsoleProps.ScreenOfNewLines | vga.c:43-71 | 25 line feeds from row 0 scroll exactly once and leave the cursor at (24, 0) |
| ConsoleProps.FullRow | vga.c:91-97 | 80 printable bytes written from column 0 of a row above the last fill that row in order and in the active attribute, change no other row, and leave the cursor at the start of the next row |
| ConsoleProps.MessageOnRow | vga.c:91-98 | a printable message with room on the row is drawn at the cursor, which moves past it on the same row |
| ConsoleProps.LineFromOrigin | vga.c:101-105 | a one-line message and a newline printed from (0, 0) draw the message at the start of row 0 and leave the cursor at (1, 0) |
| ConsoleProps.Greeting | main.c:11-13 | after init, light grey on black, and a one-line message plus newline: the message is at the start of row 0 in attribute 0x07, every other cell is blank in 0x07, and the hardware cursor is at index 80 |
| ConsoleProps.KernelGreeting | main.c:11-13 | the kernel's own start-up run prints "Hello, World!" at the start of row 0 in attribute 0x07, leaves every other cell blank in 0x07, and puts the hardware cursor at index 80 |
| ConsoleProps.HelloIsOneLine | main.c:13 | the kernel's greeting is printable ASCII and fits on one row |
| NumberFormat.HexDigit | vga.c:125-129 | the digit character for a nibble reads back as the nibble; it is a decimal digit exactly for nibbles below 10 |
| NumberFormat.DecDigit | vga.c:158 | the digit character reads back as the digit |
| NumberFormat.HexDigits | vga.c:135-140 | hex digits only, empty exactly for 0, no leading zero |
| NumberFormat.DecDigits | vga.c:155-161 | decimal digits only, empty exactly for 0, no leading zero |
| NumberFormat.HexDigitsRoundTrip | vga.c:135-140 | the hex digits of v read back as v |
| NumberFormat.DecDigitsRoundTrip | vga.c:155-161 | the decimal digits of v read back as v |
| NumberFormat.HexDigitsLength | vga.c:135 | a value below 16^k has at most k hex digits |
| NumberFormat.DecDigitsLength | vga.c:157 | a value below 10^k has at most k decimal digits |
| NumberFormat.HexLength | vga.c:135 | a 32-bit value has at most 8 hex digits |
| NumberFormat.HexText | vga.c:131-141 | "0x" and then 1 to 8 hex digits; the first digit is '0' exactly for 0, which prints "0x0" |
| NumberFormat.HexTextRoundTrip | vga.c:131-141 | the digits after "0x" read back as the value |
| NumberFormat.ShiftBelow | vga.c:136 | shifting a value below 16^k right by j nibbles leaves it below 16^(k-j) |
| NumberFormat.ShiftOutAll | vga.c:135-136 | shifting a 32-bit value right by 8 nibbles leaves 0 |
| NumberFormat.WriteHexLoop | vga.c:131-141 | the nibble loop from 7 down to 0, which skips leading zeros but never nibble 0, prints exactly HexText(value) |
| NumberFormat.DecText | vga.c:143-162 | "0" for zero; otherwise '-' exactly for negative values, then 1 to 10 digits of the magnitude with no leading zero |
| NumberFormat.DecLength | vga.c:155-157 | a 32-bit signed magnitude has at most 10 decimal digits |
| NumberFormat.DecTextRoundTrip | vga.c:143-162 | the decimal text reads back as the value, including INT32_MIN |
| NumberFormat.FillDigitBuffer | vga.c:155-160 | the digit buffer, read back to front, is the value's decimal digits, and it never fills its 12 bytes |
| NumberFormat.EmitBackwards | vga.c:161 | the buffer is printed from its last byte to its first |
| NumberFormat.WriteDecLoop | vga.c:143-162 | the driver's sign, buffer and emit loops print exactly DecText(value) when the negation does not overflow |
| NumberFormat.Negate32 | vga.c:152 | two's-complement negation: the result stays in the 32-bit range and is congruent to -v modulo 2^32, so it is the true negation except at INT32_MIN, which wraps to INT32_MIN |
| NumberFormat.WriteDecWrapped | vga.c:143-162 | with the negation wrapping, the printer agrees with DecText everywhere except INT32_MIN, where it prints a lone '-' |
| NumberFormat.WrappedMinIsNotItsText | vga.c:150-153 | a lone '-' reads back as 0 and is not INT32_MIN's decimal text, which reads back as INT32_MIN |
| NumberFormat.WriteHex | vga.c:131-141 | printing a hex value keeps the invariant and the attribute; with room on the row the text is drawn at the cursor, which moves past it |
| NumberFormat.WriteDec | vga.c:143-162 | printing a decimal value keeps the invariant and the attribute; with room on the row the text is drawn at the cursor, which moves past it |

## Left out

- Port output (`outb`, inline assembly): each write is a `PortWrite` entry appended to the state's `io` trace. The trace records the port and the byte value.
- The buffer's physical address 0xB8000: the grid is an abstract sequence of 2000 cells. Its contents at power-on are a parameter of `Console.PowerOn`.
- The kernel's halt loop after the greeting (main.c) has no effect on the console and is not modelled.
- Concurrency: the driver has no locking. The model is sequential.
- Console.Putc, Console.Printable, Console.Tab, Console.NewLine, Console.CarriageReturn, Console.PutRun, Console.PutEach, Console.Puts, NumberFormat.WriteHex, NumberFormat.WriteDec: every operation except `SetColor`, `Clear` and `Init` requires the state invariant (`Console.Valid`). The driver assumes it without checking. Every state built from `PowerOn` through the modelled calls satisfies it.
- Console.SetColor, Cells.EntryColor: these require both colours below 16, the range of the colour enumeration. A larger background would be shifted out of the byte, and a larger foreground would overlap the background nibble.
- NumberFormat.WriteHexLoop, NumberFormat.ShiftNibbles: `(value >> 4*i) & 0xF` is modelled as i repeated divisions by 16, then the remainder mod 16.
- Console.CursorWrites: `pos >> 8` and `pos & 0xFF` are modelled as division by 256 and remainder mod 256. The cast to `uint16_t` is remainder mod 65536.
- C `char`: every byte is modelled as unsigned (0..255). This matches the driver's `(unsigned char)` test before the printable branch.
- NumberFormat.WriteHex: takes any value below 2^32, which is the range of `uint32_t`. Printing is stated in full only when the text fits on the current row. Wrapping text is covered by the general `Putc` contracts.
- NumberFormat.WriteDec: models the corrected printer (see Findings), which prints INT32_MIN in full. It states the drawing only when the text fits on the current row.
- The driver's `size_t` row and column are unbounded naturals. They never exceed 25 and 80, so no wrap-around applies.

## Findings

| source | as written | input that shows it | evidently intended | confidence | as-written member | corrected member |
|---|---|---|---|---|---|---|
| vga.c:150-153 | `value = -value` on an `int32_t` overflows for INT32_MIN. This is undefined behaviour in C. With two's-complement wrap-around the value stays negative, the digit loop never runs, and only "-" is printed. | INT32_MIN (-2147483648) | print "-2147483648", for example by negating into an unsigned 32-bit magnitude | not executed; medium, because the outcome of undefined behaviour depends on the compiler | NumberFormat.WriteDecWrapped | NumberFormat.WriteDecLoop |

=== FILE: cells.dfy ===
/**
  The cell encoding of the VGA text-mode buffer.

  A cell is a 16-bit word: the character code in the low byte and the colour
  attribute in the high byte. The attribute packs the foreground colour in
  bits 0-3 and the background colour in bits 4-7.
 */
module Cells {

  /** One byte: a character code or a colour attribute. */
  type Byte = bv8

  /** One 16-bit text-mode cell. */
  type Cell = bv16

  /** The sixteen colours of the text-mode palette. */
  const BLACK: Byte := 0
  const BLUE: Byte := 1
  const GREEN: Byte := 2
  const CYAN: Byte := 3
  const RED: Byte := 4
  const MAGENTA: Byte := 5
  const BROWN: Byte := 6
  const LIGHT_GREY: Byte := 7
  const DARK_GREY: Byte := 8
  const LIGHT_BLUE: Byte := 9
  const LIGHT_GREEN: Byte := 10
  const LIGHT_CYAN: Byte := 11
  const LIGHT_RED: Byte := 12
  const LIGHT_MAGENTA: Byte := 13
  const LIGHT_BROWN: Byte := 14
  const WHITE: Byte := 15

  /** The space character, used to blank cells. */
  const SPACE: Byte := 0x20

  /** A value of the 16-entry colour enumeration. */
  predicate IsColor(c: Byte) {
    c < 16
  }

  /** The foreground colour held in an attribute (its low nibble). */
  function Foreground(attr: Byte): Byte {
    attr & 0xF
  }

  /** The background colour held in an attribute (its high nibble). */
  function Background(attr: Byte): Byte {
    attr >> 4
  }

  /** The character code held in a cell (its low byte). */
  function CharOf(cell: Cell): Byte {
    (cell & 0xFF) as Byte
  }

  /** The attribute held in a cell (its high byte). */
  function AttrOf(cell: Cell): Byte {
    (cell >> 8) as Byte
  }

  /** Packs a foreground and a background colour into one attribute byte;
      both nibbles decode back, and distinct colour pairs give distinct attributes. */
  function EntryColor(fg: Byte, bg: Byte): (attr: Byte)
    requires IsColor(fg) && IsColor(bg)
    ensures Foreground(attr) == fg && Background(attr) == bg
    ensures attr as int == fg as int + 16 * bg as int
  {
    fg | (bg << 4)
  }

  /** Packs a character and an attribute into one cell; both bytes decode back. */
  function Entry(uc: Byte, color: Byte): (cell: Cell)
    ensures CharOf(cell) == uc && AttrOf(cell) == color
  {
    (uc as bv16) | ((color as bv16) << 8)
  }

  /** The blank cell of an attribute: a space drawn in that attribute. */
  function Blank(color: Byte): (cell: Cell)
    ensures CharOf(cell) == SPACE && AttrOf(cell) == color
  {
    Entry(SPACE, color)
  }

  /** Every cell is the entry of its own character and attribute, so the
      encoding is a bijection between (character, attribute) pairs and cells. */
  lemma EntryOfDecoded(cell: Cell)
    ensures Entry(CharOf(cell), AttrOf(cell)) == cell
  {
  }

  /** Two entries are equal exactly when their characters and attributes are. */
  lemma EntryInjective(uc1: Byte, color1: Byte, uc2: Byte, color2: Byte)
    ensures Entry(uc1, color1) == Entry(uc2, color2) <==> uc1 == uc2 && color1 == color2
  {
    var e1 := Entry(uc1, color1);
    var e2 := Entry(uc2, color2);
    if e1 == e2 {
      assert CharOf(e1) == CharOf(e2) && AttrOf(e1) == AttrOf(e2);
    }
  }

  /** Every attribute is the packing of its own two nibbles. */
  lemma EntryColorOfDecoded(attr: Byte)
    ensures IsColor(Foreground(attr)) && IsColor(Background(attr))
    ensures EntryColor(Foreground(attr), Background(attr)) == attr
  {
  }

  /** The driver's start-up attribute 0x07 is light grey on black. */
  lemma DefaultAttributeIsLightGreyOnBlack()
    ensures EntryColor(LIGHT_GREY, BLACK) == 0x07
  {
  }
}

=== FILE: console.dfy ===
/**
  The VGA text-mode console as a state machine.

  The state is the 80x25 cell grid (row-major, 2000 cells), the cursor
  (row, column), the active attribute and the sequence of writes made to the
  hardware cursor's I/O ports. Every operation of the driver is a pure
  function from one state to the next.
 */
module Console {
  import opened Cells

  const WIDTH: nat := 80
  const HEIGHT: nat := 25
  /** WIDTH * HEIGHT cells. */
  const CELLS: nat := 2000

  /** The CRT controller's index and data ports, and the two cursor-location registers. */
  const CRTC_INDEX: int := 0x3D4
  const CRTC_DATA: int := 0x3D5
  const CURSOR_HIGH: int := 14
  const CURSOR_LOW: int := 15

  /** The attribute the driver starts with: light grey on black. */
  const DEFAULT_COLOR: Byte := 0x07

  /** The control characters the driver acts on. */
  const NL: Byte := 0x0A
  const CR: Byte := 0x0D
  const TAB: Byte := 0x09

  /** One `outb` of a byte value to an I/O port. */
  datatype PortWrite = Outb(port: int, value: int)

  /** The driver's whole state. */
  datatype Console = Console(grid: seq<Cell>, row: nat, col: nat, color: Byte, io: seq<PortWrite>)

  /** The stable-state invariant: a full grid and a cursor inside it. */
  predicate Valid(s: Console) {
    |s.grid| == CELLS && s.row < HEIGHT && s.col < WIDTH
  }

  /** The row-major offset of a cell; it decodes back to its row and column
      and stays inside the grid for an in-range cursor. */
  function Offset(row: nat, col: nat): (i: nat)
    ensures col < WIDTH ==> i / WIDTH == row && i % WIDTH == col
    ensures row < HEIGHT && col < WIDTH ==> i < CELLS
  {
    row * WIDTH + col
  }

  // ---------------------------------------------------------------------
  // Hardware cursor
  // ---------------------------------------------------------------------

  /** The four port writes that move the hardware cursor to (row, col): the
      position, truncated to 16 bits, is sent high byte first, then low byte. */
  function CursorWrites(row: nat, col: nat): (w: seq<PortWrite>)
    ensures |w| == 4
    ensures w[0] == Outb(CRTC_INDEX, CURSOR_HIGH) && w[2] == Outb(CRTC_INDEX, CURSOR_LOW)
    ensures w[1].port == CRTC_DATA && w[3].port == CRTC_DATA
    ensures 0 <= w[1].value < 256 && 0 <= w[3].value < 256
    ensures w[1].value * 256 + w[3].value == Offset(row, col) % 0x1_0000
  {
    var pos := Offset(row, col) % 0x1_0000;
    [Outb(CRTC_INDEX, CURSOR_HIGH), Outb(CRTC_DATA, pos / 256),
     Outb(CRTC_INDEX, CURSOR_LOW), Outb(CRTC_DATA, pos % 256)]
  }

  /** The last thing written to the ports moved the hardware cursor to the logical cursor. */
  predicate Synced(s: Console) {
    |s.io| >= 4 && s.io[|s.io| - 4..] == CursorWrites(s.row, s.col)
  }

  /** The position the hardware cursor was last given, read back from the port trace. */
  function HardwareCursor(io: seq<PortWrite>): int
    requires |io| >= 4
  {
    io[|io| - 3].value * 256 + io[|io| - 1].value
  }

  /** Pushes the logical cursor to the hardware cursor registers. */
  function Sync(s: Console): (r: Console)
    ensures Synced(r)
    ensures r.grid == s.grid && r.row == s.row && r.col == s.col && r.color == s.color
    ensures |r.io| == |s.io| + 4 && r.io[..|s.io|] == s.io
  {
    s.(io := s.io + CursorWrites(s.row, s.col))
  }

  // ---------------------------------------------------------------------
  // Grid transformations
  // ---------------------------------------------------------------------

  /** `after` is `before` moved up one row, with a blank last row in `color`. */
  predicate ScrolledUp(before: seq<Cell>, after: seq<Cell>, color: Byte) {
    && |before| == CELLS && |after| == CELLS
    && (forall i :: 0 <= i < CELLS - WIDTH ==> after[i] == before[i + WIDTH])
    && (forall i :: CELLS - WIDTH <= i < CELLS ==> after[i] == Blank(color))
  }

  /** `g` with `text` drawn in `color` starting at offset `from`. */
  function Written(g: seq<Cell>, from: nat, text: seq<Byte>, color: Byte): (r: seq<Cell>)
    ensures |r| == |g|
    ensures forall i :: 0 <= i < |g| && from <= i < from + |text| ==> r[i] == Entry(text[i - from], color)
    ensures forall i :: 0 <= i < |g| && !(from <= i < from + |text|) ==> r[i] == g[i]
  {
    seq(|g|, i requires 0 <= i < |g| => if from <= i < from + |text| then Entry(text[i - from], color) else g[i])
  }

  /** A run of `n` spaces. */
  function Spaces(n: nat): (t: seq<Byte>)
    ensures |t| == n && forall i :: 0 <= i < n ==> t[i] == SPACE
  {
    seq(n, _ => SPACE)
  }

  // ---------------------------------------------------------------------
  // Operations
  // ---------------------------------------------------------------------

  /** The state before any driver call: the static initialisers put the cursor
      at the origin and the attribute at light grey on black; the grid holds
      whatever the hardware holds. */
  function PowerOn(grid: seq<Cell>): (s: Console)
    requires |grid| == CELLS
    ensures Valid(s) && s.color == EntryColor(LIGHT_GREY, BLACK)
    ensures s.grid == grid && s.row == 0 && s.col == 0 && s.io == []
  {
    Console(grid, 0, 0, DEFAULT_COLOR, [])
  }

  /** Sets the active attribute; the grid, the cursor and the ports are untouched. */
  function SetColor(s: Console, fg: Byte, bg: Byte): (r: Console)
    requires IsColor(fg) && IsColor(bg)
    ensures Foreground(r.color) == fg && Background(r.color) == bg
    ensures r.grid == s.grid && r.row == s.row && r.col == s.col && r.io == s.io
    ensures Valid(s) ==> Valid(r)
  {
    s.(color := EntryColor(fg, bg))
  }

  /** Scrolls the grid up one row when the cursor has moved below the last
      row, and otherwise changes nothing. */
  function ScrollIfNeeded(s: Console): (r: Console)
    requires |s.grid| == CELLS
    ensures s.row < HEIGHT ==> r == s
    ensures s.row >= HEIGHT ==> r.row == HEIGHT - 1 && ScrolledUp(s.grid, r.grid, s.color)
    ensures |r.grid| == CELLS && r.row < HEIGHT
    ensures r.col == s.col && r.color == s.color && r.io == s.io
  {
    if s.row < HEIGHT then s
    else s.(grid := s.grid[WIDTH..] + seq(WIDTH, _ => Blank(s.color)), row := HEIGHT - 1)
  }

  /** Line feed: column 0 of the next row, scrolling off the bottom; no cell is written. */
  function NewLine(s: Console): (r: Console)
    requires Valid(s)
    ensures Valid(r) && Synced(r) && r.color == s.color
    ensures r.col == 0
    ensures s.row + 1 < HEIGHT ==> r.row == s.row + 1 && r.grid == s.grid
    ensures s.row + 1 == HEIGHT ==> r.row == HEIGHT - 1 && ScrolledUp(s.grid, r.grid, s.color)
    ensures r.io == s.io + CursorWrites(r.row, r.col)
  {
    Sync(ScrollIfNeeded(s.(col := 0, row := s.row + 1)))
  }

  /** Carriage return: column 0 of the same row; no cell is written. */
  function CarriageReturn(s: Console): (r: Console)
    requires Valid(s)
    ensures Valid(r) && Synced(r) && r.color == s.color
    ensures r.col == 0 && r.row == s.row && r.grid == s.grid
    ensures r.io == s.io + CursorWrites(s.row, 0)
  {
    Sync(s.(col := 0))
  }

  /** A printable byte: drawn at the cursor, which then advances, wrapping to the
      next row and scrolling off the bottom; nothing else on the grid changes. */
  function Printable(s: Console, c: Byte): (r: Console)
    requires Valid(s)
    ensures Valid(r) && Synced(r) && r.color == s.color
    ensures r.io == s.io + CursorWrites(r.row, r.col)
    ensures s.col + 1 < WIDTH ==>
      r.row == s.row && r.col == s.col + 1 && r.grid == Written(s.grid, Offset(s.row, s.col), [c], s.color)
    ensures s.col + 1 == WIDTH && s.row + 1 < HEIGHT ==>
      r.row == s.row + 1 && r.col == 0 && r.grid == Written(s.grid, Offset(s.row, s.col), [c], s.color)
    ensures s.col + 1 == WIDTH && s.row + 1 == HEIGHT ==>
      r.row == HEIGHT - 1 && r.col == 0 && ScrolledUp(Written(s.grid, Offset(s.row, s.col), [c], s.color), r.grid, s.color)
  {
    var drawn := s.grid[Offset(s.row, s.col) := Entry(c, s.color)];
    assert drawn == Written(s.grid, Offset(s.row, s.col), [c], s.color);
    if s.col + 1 < WIDTH then Sync(s.(grid := drawn, col := s.col + 1))
    else Sync(ScrollIfNeeded(s.(grid := drawn, col := 0, row := s.row + 1)))
  }

  /** A run of printable bytes, each handled as `Printable`: one hardware
      cursor update per byte. */
  function PutRun(s: Console, text: seq<Byte>): (r: Console)
    requires Valid(s)
    decreases |text|
    ensures Valid(r) && r.color == s.color
    ensures |r.io| == |s.io| + 4 * |text|
    ensures |text| > 0 ==> Synced(r)
    ensures |text| == 0 ==> r == s
  {
    if |text| == 0 then s else PutRun(Printable(s, text[0]), text[1..])
  }

  /** Within one row a run of printable bytes is drawn left to right at the
      cursor and nothing else on the grid changes; a run that ends exactly at
      the right edge wraps the cursor to column 0 of the next row, scrolling
      when it was on the last row. */
  lemma {:induction false} PutRunDraws(s: Console, text: seq<Byte>)
    requires Valid(s) && s.col + |text| <= WIDTH
    decreases |text|
    ensures var r := PutRun(s, text);
      && (s.col + |text| < WIDTH ==>
            r.row == s.row && r.col == s.col + |text| && r.grid == Written(s.grid, Offset(s.row, s.col), text, s.color))
      && (s.col + |text| == WIDTH && s.row + 1 < HEIGHT ==>
            r.row == s.row + 1 && r.col == 0 && r.grid == Written(s.grid, Offset(s.row, s.col), text, s.color))
      && (s.col + |text| == WIDTH && s.row + 1 == HEIGHT ==>
            r.row == HEIGHT - 1 && r.col == 0 && ScrolledUp(Written(s.grid, Offset(s.row, s.col), text, s.color), r.grid, s.color))
  {
    var off := Offset(s.row, s.col);
    if |text| == 0 {
      assert Written(s.grid, off, text, s.color) == s.grid;
    } else {
      var t := Printable(s, text[0]);
      var rest := text[1..];
      assert PutRun(s, text) == PutRun(t, rest);
      if |text| == 1 {
        assert rest == [];
        assert text == [text[0]];
      } else {
        assert t.row == s.row && t.col == s.col + 1;
        assert t.grid == Written(s.grid, off, [text[0]], s.color);
        assert Offset(t.row, t.col) == off + 1;
        PutRunDraws(t, rest);
        WrittenStep(s.grid, off, text, s.color);
      }
    }
  }

  /** Drawing the first byte and then the rest is drawing the whole text. */
  lemma WrittenStep(g: seq<Cell>, from: nat, text: seq<Byte>, color: Byte)
    requires |text| > 0
    ensures Written(Written(g, from, [text[0]], color), from + 1, text[1..], color) == Written(g, from, text, color)
  {
    var a := Written(Written(g, from, [text[0]], color), from + 1, text[1..], color);
    var b := Written(g, from, text, color);
    assert |a| == |b|;
    forall i | 0 <= i < |a|
      ensures a[i] == b[i]
    {
      if from + 1 <= i < from + |text| {
        assert text[1..][i - (from + 1)] == text[i - from];
      }
    }
  }

  /** The number of spaces a tab emits at column `col`: between one and four,
      reaching the next multiple of four. */
  function TabWidth(col: nat): (n: nat)
    ensures 1 <= n <= 4 && (col + n) % 4 == 0
  {
    4 - col % 4
  }

  /** A tab from an in-range column stops on the next multiple of four, which
      is the right edge exactly when the tab starts in the last four columns. */
  lemma TabStop(col: nat)
    requires col < WIDTH
    ensures col + TabWidth(col) == (col / 4 + 1) * 4 <= WIDTH
    ensures col + TabWidth(col) == WIDTH <==> col >= WIDTH - 4
    ensures (col + TabWidth(col)) % WIDTH == if col >= WIDTH - 4 then 0 else col + TabWidth(col)
  {
  }

  /** Horizontal tab: spaces up to the next multiple of four, written as
      printable spaces, so a tab at column 76 or beyond wraps to the next row. */
  function Tab(s: Console): (r: Console)
    requires Valid(s)
    ensures Valid(r) && Synced(r) && r.color == s.color
    ensures r.col == (s.col / 4 + 1) * 4 % WIDTH
    ensures |r.io| == |s.io| + 4 * TabWidth(s.col)
    ensures s.col < WIDTH - 4 ==>
      r.row == s.row && r.grid == Written(s.grid, Offset(s.row, s.col), Spaces(TabWidth(s.col)), s.color)
    ensures s.col >= WIDTH - 4 && s.row + 1 < HEIGHT ==>
      r.row == s.row + 1 && r.grid == Written(s.grid, Offset(s.row, s.col), Spaces(TabWidth(s.col)), s.color)
    ensures s.col >= WIDTH - 4 && s.row + 1 == HEIGHT ==>
      r.row == HEIGHT - 1 && ScrolledUp(Written(s.grid, Offset(s.row, s.col), Spaces(TabWidth(s.col)), s.color), r.grid, s.color)
  {
    var n := TabWidth(s.col);
    TabStop(s.col);
    PutRunDraws(s, Spaces(n));
    PutRun(s, Spaces(n))
  }

  /** A control byte below the space that the driver silently discards. */
  predicate Ignored(c: Byte) {
    c < SPACE && c != NL && c != CR && c != TAB
  }

  /** How many hardware cursor updates `Putc(c)` makes at column `col`. */
  function CursorUpdates(c: Byte, col: nat): nat {
    if c == TAB then TabWidth(col) else if Ignored(c) then 0 else 1
  }

  /** Writes one byte, dispatching on line feed, carriage return, tab, other
      control bytes and printable bytes (0x20 and above, including 0x80-0xFF).
      It keeps the cursor inside the grid, leaves the attribute alone, and leaves
      the hardware cursor on the logical cursor; a discarded control byte
      changes nothing at all. */
  function Putc(s: Console, c: Byte): (r: Console)
    requires Valid(s)
    ensures Valid(r) && r.color == s.color
    ensures Ignored(c) ==> r == s
    ensures !Ignored(c) ==> Synced(r)
    ensures |r.io| == |s.io| + 4 * CursorUpdates(c, s.col)
    ensures c == NL || c == CR ==> r.col == 0
    ensures c == NL ==> r.row == if s.row + 1 < HEIGHT then s.row + 1 else HEIGHT - 1
    ensures c == CR ==> r.row == s.row && r.grid == s.grid
    ensures c == TAB ==> r.col == (s.col / 4 + 1) * 4 % WIDTH
    ensures c >= SPACE ==>
      && r.col == (s.col + 1) % WIDTH
      && r.row == (if s.col + 1 < WIDTH then s.row else if s.row + 1 < HEIGHT then s.row + 1 else HEIGHT - 1)
  {
    if c == NL then NewLine(s)
    else if c == CR then CarriageReturn(s)
    else if c == TAB then Tab(s)
    else if c < SPACE then s
    else Printable(s, c)
  }

  /** Writes each byte of `text` in order with `Putc`. */
  function PutEach(s: Console, text: seq<Byte>): (r: Console)
    requires Valid(s)
    decreases |text|
    ensures Valid(r) && r.color == s.color
    ensures Synced(s) ==> Synced(r)
  {
    if |text| == 0 then s else PutEach(Putc(s, text[0]), text[1..])
  }

  /** The characters of a NUL-terminated string: the bytes before the first 0. */
  function CString(str: seq<Byte>): (t: seq<Byte>)
    decreases |str|
    ensures t <= str && 0 !in t
    ensures |t| < |str| ==> str[|t|] == 0
  {
    if |str| == 0 || str[0] == 0 then [] else [str[0]] + CString(str[1..])
  }

  /** Writes a NUL-terminated string: each byte up to the terminator, in order. */
  function Puts(s: Console, str: seq<Byte>): (r: Console)
    requires Valid(s)
    ensures Valid(r) && r.color == s.color
    ensures Synced(s) ==> Synced(r)
  {
    PutEach(s, CString(str))
  }

  /** Blanks every cell in the active attribute and homes the cursor; one
      hardware cursor update. */
  function Clear(s: Console): (r: Console)
    ensures Valid(r) && Synced(r)
    ensures r.row == 0 && r.col == 0 && r.color == s.color
    ensures forall i :: 0 <= i < CELLS ==> r.grid[i] == Blank(s.color)
    ensures r.io == s.io + CursorWrites(0, 0)
  {
    Sync(s.(grid := seq(CELLS, _ => Blank(s.color)), row := 0, col := 0))
  }

  /** Driver initialisation, which is a clear. */
  function Init(s: Console): (r: Console)
    ensures Valid(r) && Synced(r)
    ensures r.row == 0 && r.col == 0 && r.color == s.color
    ensures forall i :: 0 <= i < CELLS ==> r.grid[i] == Blank(s.color)
  {
    Clear(s)
  }
}

=== FILE: console_props.dfy ===
/**
  Properties of the console that relate several driver calls: strings are
  written character by character, the hardware cursor always lands inside the
  grid, runs of newlines scroll exactly when they pass the last row, and the
  start-up greeting leaves the screen the way the kernel expects.
 */
module ConsoleProps {
  import opened Cells
  import opened Console

  /** No byte of `text` is a control byte. */
  predicate AllPrintable(text: seq<Byte>) {
    forall i :: 0 <= i < |text| ==> text[i] >= SPACE
  }

  /** Writing two texts one after the other is writing their concatenation. */
  lemma {:induction false} PutEachConcat(s: Console, a: seq<Byte>, b: seq<Byte>)
    requires Valid(s)
    decreases |a|
    ensures PutEach(s, a + b) == PutEach(PutEach(s, a), b)
  {
    if |a| == 0 {
      assert a + b == b;
    } else {
      assert (a + b)[0] == a[0];
      assert (a + b)[1..] == a[1..] + b;
      PutEachConcat(Putc(s, a[0]), a[1..], b);
    }
  }

  /** Through `Putc`, printable bytes (0x20 to 0xFF) take the printable branch
      one after another. */
  lemma {:induction false} PutEachPrintable(s: Console, text: seq<Byte>)
    requires Valid(s) && AllPrintable(text)
    decreases |text|
    ensures PutEach(s, text) == PutRun(s, text)
  {
    if |text| > 0 {
      assert text[0] >= SPACE;
      assert AllPrintable(text[1..]) by {
        forall i | 0 <= i < |text[1..]|
          ensures text[1..][i] >= SPACE
        {
          assert text[1..][i] == text[i + 1];
        }
      }
      var c := text[0];
      assert Putc(s, c) == Printable(s, c) by {
        assert c != NL && c != CR && c != TAB && !(c < SPACE);
      }
      PutEachPrintable(Printable(s, c), text[1..]);
    }
  }

  /** Every byte from 0x20 up, including 0x80-0xFF, takes the printable branch. */
  lemma PrintableDispatch(s: Console, c: Byte)
    requires Valid(s) && c >= SPACE
    ensures Putc(s, c) == Printable(s, c)
  {
  }

  /** A tab is exactly `TabWidth(col)` spaces written one by one through `Putc`. */
  lemma TabThroughPutc(s: Console)
    requires Valid(s)
    ensures Putc(s, TAB) == PutEach(s, Spaces(TabWidth(s.col)))
  {
    PutEachPrintable(s, Spaces(TabWidth(s.col)));
  }

  /** A string's characters are the bytes before its terminator. */
  lemma {:induction false} CStringTerminated(a: seq<Byte>, rest: seq<Byte>)
    requires 0 !in a
    decreases |a|
    ensures CString(a + [0] + rest) == a
  {
    if |a| == 0 {
      assert (a + [0] + rest)[0] == 0;
    } else {
      assert (a + [0] + rest)[0] == a[0];
      assert (a + [0] + rest)[1..] == a[1..] + [0] + rest;
      CStringTerminated(a[1..], rest);
    }
  }

  /** `Puts` is `Putc` applied to each byte before the terminator, in order;
      nothing after the terminator is written. */
  lemma PutsTerminated(s: Console, a: seq<Byte>, rest: seq<Byte>)
    requires Valid(s) && 0 !in a
    ensures Puts(s, a + [0] + rest) == PutEach(s, a)
  {
    CStringTerminated(a, rest);
  }

  /** A stable state's hardware cursor is the logical cursor's row-major
      position, below 2000, so the 16-bit truncation never changes it. */
  lemma HardwareCursorInRange(s: Console)
    requires Valid(s) && Synced(s)
    ensures HardwareCursor(s.io) == Offset(s.row, s.col) < CELLS < 0x1_0000
  {
    var w := CursorWrites(s.row, s.col);
    assert s.io[|s.io| - 3] == w[1] && s.io[|s.io| - 1] == w[3];
    var pos := Offset(s.row, s.col);
    assert pos < CELLS;
    assert pos % 0x1_0000 == pos;
    assert HardwareCursor(s.io) == w[1].value * 256 + w[3].value;
  }

  /** After any string is written to a synchronised console, the cursor is in
      the grid and the hardware cursor shows it. */
  lemma PutsKeepsCursorInGrid(s: Console, str: seq<Byte>)
    requires Valid(s) && Synced(s)
    ensures var r := Puts(s, str);
      Valid(r) && HardwareCursor(r.io) == Offset(r.row, r.col) < CELLS
  {
    HardwareCursorInRange(Puts(s, str));
  }

  /** `k` line feeds.  */
  function NewLines(k: nat): (t: seq<Byte>)
    ensures |t| == k && forall i :: 0 <= i < k ==> t[i] == NL
  {
    seq(k, _ => NL)
  }

  /** Line feeds that stay above the bottom move the cursor down one row
      each, to column 0, and write no cell. */
  lemma {:induction false} NewLinesWithoutScroll(s: Console, k: nat)
    requires Valid(s) && s.row + k < HEIGHT
    decreases k
    ensures var r := PutEach(s, NewLines(k));
      r.row == s.row + k && r.grid == s.grid && (k > 0 ==> r.col == 0)
  {
    if k > 0 {
      var t := Putc(s, NL);
      assert NewLines(k)[1..] == NewLines(k - 1);
      NewLinesWithoutScroll(t, k - 1);
    }
  }

  /** From the top row, HEIGHT line feeds scroll exactly once: the cursor ends
      at column 0 of the last row and the original top row is gone. */
  lemma ScreenOfNewLines(s: Console)
    requires Valid(s) && s.row == 0
    ensures var r := PutEach(s, NewLines(HEIGHT));
      r.row == HEIGHT - 1 && r.col == 0 && ScrolledUp(s.grid, r.grid, s.color)
  {
    assert NewLines(HEIGHT) == NewLines(HEIGHT - 1) + [NL];
    PutEachConcat(s, NewLines(HEIGHT - 1), [NL]);
    NewLinesWithoutScroll(s, HEIGHT - 1);
    var t := PutEach(s, NewLines(HEIGHT - 1));
    assert PutEach(t, [NL]) == Putc(t, NL);
  }

  /** WIDTH printable bytes written from column 0 of a row above the last fill
      that row, in order and in the active attribute, and leave the cursor at
      the start of the next row. */
  lemma FullRow(s: Console, text: seq<Byte>)
    requires Valid(s) && s.col == 0 && s.row + 1 < HEIGHT
    requires |text| == WIDTH && AllPrintable(text)
    ensures var r := PutEach(s, text);
      && r.row == s.row + 1 && r.col == 0
      && (forall x :: 0 <= x < WIDTH ==> r.grid[Offset(s.row, x)] == Entry(text[x], s.color))
      && (forall i :: 0 <= i < CELLS && i / WIDTH != s.row ==> r.grid[i] == s.grid[i])
  {
    PutEachPrintable(s, text);
    PutRunDraws(s, text);
    var r := PutRun(s, text);
    var off := Offset(s.row, 0);
    assert r.grid == Written(s.grid, off, text, s.color);
    forall x | 0 <= x < WIDTH
      ensures r.grid[Offset(s.row, x)] == Entry(text[x], s.color)
    {
      assert Offset(s.row, x) == off + x;
    }
    forall i | 0 <= i < CELLS && i / WIDTH != s.row
      ensures r.grid[i] == s.grid[i]
    {
      OutsideRow(i, s.row);
    }
  }

  /** A cell whose row is not `row` lies outside that row's offsets. */
  lemma OutsideRow(i: nat, row: nat)
    requires i / WIDTH != row
    ensures !(Offset(row, 0) <= i < Offset(row, 0) + WIDTH)
  {
  }

  /** "Hello, World!" as bytes: the greeting the kernel prints at start-up. */
  const HELLO: seq<Byte> := [0x48, 0x65, 0x6C, 0x6C, 0x6F, 0x2C, 0x20, 0x57, 0x6F, 0x72, 0x6C, 0x64, 0x21]

  /** A one-line message and a newline, printed from the top-left corner, are
      drawn at the start of row 0 and leave the cursor at the start of row 1. */
  lemma LineFromOrigin(s: Console, msg: seq<Byte>)
    requires Valid(s) && s.row == 0 && s.col == 0
    requires AllPrintable(msg) && |msg| < WIDTH
    ensures var r := Puts(s, msg + [NL, 0]);
      && r.row == 1 && r.col == 0 && r.color == s.color && Synced(r)
      && r.grid == Written(s.grid, 0, msg, s.color)
  {
    var line := msg + [NL];
    assert msg + [NL, 0] == line + [0] + [];
    assert 0 !in line by {
      forall i | 0 <= i < |line|
        ensures line[i] != 0
      {
        if i < |msg| {
          assert line[i] == msg[i] >= SPACE;
        }
      }
    }
    PutsTerminated(s, line, []);
    assert Puts(s, msg + [NL, 0]) == PutEach(s, line);
    PutEachConcat(s, msg, [NL]);
    var t := PutEach(s, msg);
    assert PutEach(s, line) == PutEach(t, [NL]);
    MessageOnRow(s, msg);
    PutEachOne(t, NL);
  }

  /** A printable message shorter than the rest of the row is drawn at the
      cursor, which moves past it. */
  lemma MessageOnRow(s: Console, msg: seq<Byte>)
    requires Valid(s) && AllPrintable(msg) && s.col + |msg| < WIDTH
    ensures var t := PutEach(s, msg);
      && t.row == s.row && t.col == s.col + |msg| && t.color == s.color
      && t.grid == Written(s.grid, Offset(s.row, s.col), msg, s.color)
  {
    PutEachPrintable(s, msg);
    PutRunDraws(s, msg);
  }

  /** Writing a one-byte text is one `Putc`. */
  lemma PutEachOne(s: Console, c: Byte)
    requires Valid(s)
    ensures PutEach(s, [c]) == Putc(s, c)
  {
    assert [c][1..] == [];
  }

  /** The kernel's start-up sequence: initialise, select light grey on black,
      and print a one-line message with a trailing newline. The message sits at
      the start of row 0 in attribute 0x07, every other cell is blank in 0x07,
      and the cursor (logical and hardware) is at the start of row 1. */
  lemma Greeting(grid: seq<Cell>, msg: seq<Byte>)
    requires |grid| == CELLS
    requires AllPrintable(msg) && |msg| < WIDTH
    ensures var r := Puts(SetColor(Init(PowerOn(grid)), LIGHT_GREY, BLACK), msg + [NL, 0]);
      && r.row == 1 && r.col == 0 && r.color == 0x07
      && (forall i :: 0 <= i < |msg| ==> r.grid[i] == Entry(msg[i], 0x07))
      && (forall i :: |msg| <= i < CELLS ==> r.grid[i] == Blank(0x07))
      && Synced(r) && HardwareCursor(r.io) == WIDTH
  {
    DefaultAttributeIsLightGreyOnBlack();
    var s := SetColor(Init(PowerOn(grid)), LIGHT_GREY, BLACK);
    assert s.color == 0x07 && s.row == 0 && s.col == 0;
    assert forall i :: 0 <= i < CELLS ==> s.grid[i] == Blank(0x07);
    LineFromOrigin(s, msg);
    var r := Puts(s, msg + [NL, 0]);
    HardwareCursorInRange(r);
    assert Offset(1, 0) == WIDTH;
  }

  /** The kernel's start-up run with its own greeting: "Hello, World!" sits at
      the start of row 0 in light grey on black, the rest of the screen is
      blank, and the hardware cursor is at the start of row 1. */
  lemma KernelGreeting(grid: seq<Cell>)
    requires |grid| == CELLS
    ensures var r := Puts(SetColor(Init(PowerOn(grid)), LIGHT_GREY, BLACK), HELLO + [NL, 0]);
      && r.row == 1 && r.col == 0 && r.color == 0x07
      && (forall i :: 0 <= i < |HELLO| ==> r.grid[i] == Entry(HELLO[i], 0x07))
      && (forall i :: |HELLO| <= i < CELLS ==> r.grid[i] == Blank(0x07))
      && Synced(r) && HardwareCursor(r.io) == WIDTH
  {
    HelloIsOneLine();
    Greeting(grid, HELLO);
  }

  /** The kernel's own greeting fits on one row and has no control byte. */
  lemma HelloIsOneLine()
    ensures AllPrintable(HELLO) && |HELLO| < WIDTH
    ensures forall i :: 0 <= i < |HELLO| ==> 0x20 <= HELLO[i] < 0x7F
  {
  }
}

=== FILE: grid_loops.dfy ===
/**
  The row-by-row copy loops of the driver's scroll and clear, stated over the
  cell sequence, and proved to compute the same states as the functional
  `Console.ScrollIfNeeded` and `Console.Clear`.
 */
module GridLoops {
  import opened Cells
  import opened Console

  /** A scrolled grid is determined by the grid before the scroll and the attribute. */
  lemma ScrolledUpUnique(before: seq<Cell>, a: seq<Cell>, b: seq<Cell>, color: Byte)
    requires ScrolledUp(before, a, color) && ScrolledUp(before, b, color)
    ensures a == b
  {
    forall i | 0 <= i < CELLS
      ensures a[i] == b[i]
    {
      if i < CELLS - WIDTH {
        assert a[i] == before[i + WIDTH] == b[i];
      }
    }
  }

  /** The scroll as the driver performs it: copy rows 1..24 up one row, cell by
      cell, then blank the last row; the row becomes 24. */
  method ScrollInPlace(s: Console) returns (r: Console)
    requires |s.grid| == CELLS
    ensures r == ScrollIfNeeded(s)
  {
    if s.row < HEIGHT {
      return s;
    }
    var g := s.grid;
    var y := 1;
    while y < HEIGHT
      invariant 1 <= y <= HEIGHT
      invariant |g| == CELLS
      invariant forall i :: 0 <= i < (y - 1) * WIDTH ==> g[i] == s.grid[i + WIDTH]
      invariant forall i :: (y - 1) * WIDTH <= i < CELLS ==> g[i] == s.grid[i]
    {
      var x := 0;
      while x < WIDTH
        invariant 0 <= x <= WIDTH
        invariant |g| == CELLS
        invariant forall i :: 0 <= i < (y - 1) * WIDTH + x ==> g[i] == s.grid[i + WIDTH]
        invariant forall i :: (y - 1) * WIDTH + x <= i < CELLS ==> g[i] == s.grid[i]
      {
        g := g[(y - 1) * WIDTH + x := g[y * WIDTH + x]];
        x := x + 1;
      }
      y := y + 1;
    }
    var x := 0;
    while x < WIDTH
      invariant 0 <= x <= WIDTH
      invariant |g| == CELLS
      invariant forall i :: 0 <= i < CELLS - WIDTH ==> g[i] == s.grid[i + WIDTH]
      invariant forall i :: CELLS - WIDTH <= i < CELLS - WIDTH + x ==> g[i] == Blank(s.color)
    {
      g := g[(HEIGHT - 1) * WIDTH + x := Entry(SPACE, s.color)];
      x := x + 1;
    }
    r := s.(grid := g, row := HEIGHT - 1);
    ScrolledUpUnique(s.grid, r.grid, ScrollIfNeeded(s).grid, s.color);
  }

  /** The clear as the driver performs it: blank every cell row by row, then
      home the cursor and update the hardware cursor once. */
  method ClearInPlace(s: Console) returns (r: Console)
    requires |s.grid| == CELLS
    ensures r == Clear(s)
  {
    var g := s.grid;
    var y := 0;
    while y < HEIGHT
      invariant 0 <= y <= HEIGHT
      invariant |g| == CELLS
      invariant forall i :: 0 <= i < y * WIDTH ==> g[i] == Blank(s.color)
    {
      var x := 0;
      while x < WIDTH
        invariant 0 <= x <= WIDTH
        invariant |g| == CELLS
        invariant forall i :: 0 <= i < y * WIDTH + x ==> g[i] == Blank(s.color)
      {
        g := g[y * WIDTH + x := Entry(SPACE, s.color)];
        x := x + 1;
      }
      y := y + 1;
    }
    r := s.(grid := g, row := 0, col := 0);
    r := r.(io := r.io + CursorWrites(r.row, r.col));
    assert g == Clear(s).grid;
  }
}

=== FILE: number_format.dfy ===
/**
  The driver's number printers. `vga_write_hex` prints an unsigned 32-bit
  value as "0x" and upper-case hex digits; `vga_write_dec` prints a signed
  32-bit value in decimal. Each is modelled as the byte sequence it hands to
  `Putc`: a reference definition by recursion on the value, a decoder that
  reads the digits back, and a method that follows the driver's own loops.
 */
module NumberFormat {
  import opened Cells
  import opened Console
  import opened ConsoleProps

  const UINT32_LIMIT: int := 0x1_0000_0000
  const INT32_MIN: int := -0x8000_0000
  const INT32_MAX: int := 0x7FFF_FFFF

  /** Size of the decimal printer's digit buffer. */
  const DEC_BUFFER: nat := 12

  const DIGIT_ZERO: Byte := 0x30
  const LETTER_A: Byte := 0x41
  const LOWER_X: Byte := 0x78
  const MINUS: Byte := 0x2D

  // ---------------------------------------------------------------------
  // Digits
  // ---------------------------------------------------------------------

  /** '0'..'9' or 'A'..'F'. */
  predicate IsHexChar(ch: Byte) {
    (DIGIT_ZERO <= ch <= 0x39) || (LETTER_A <= ch <= 0x46)
  }

  /** '0'..'9'. */
  predicate IsDecChar(ch: Byte) {
    DIGIT_ZERO <= ch <= 0x39
  }

  /** The value of a hex digit character. */
  function HexCharValue(ch: Byte): (d: nat)
    requires IsHexChar(ch)
    ensures d < 16
  {
    if ch <= 0x39 then (ch - DIGIT_ZERO) as nat else (ch - LETTER_A) as nat + 10
  }

  /** The character for one nibble: '0'..'9' then upper-case 'A'..'F'; it
      reads back as the nibble. */
  function HexDigit(d: nat): (ch: Byte)
    requires d < 16
    ensures IsHexChar(ch) && HexCharValue(ch) == d
    ensures IsDecChar(ch) <==> d < 10
  {
    if d < 10 then (0x30 + d) as Byte else (0x41 + (d - 10)) as Byte
  }

  /** The character for one decimal digit; it reads back as the digit. */
  function DecDigit(d: nat): (ch: Byte)
    requires d < 10
    ensures IsDecChar(ch) && HexCharValue(ch) == d
  {
    (0x30 + d) as Byte
  }

  /** Every byte of `t` is a hex digit character. */
  predicate AllHex(t: seq<Byte>) {
    forall i :: 0 <= i < |t| ==> IsHexChar(t[i])
  }

  /** Every byte of `t` is a decimal digit character. */
  predicate AllDec(t: seq<Byte>) {
    forall i :: 0 <= i < |t| ==> IsDecChar(t[i])
  }

  /** The number a string of digits denotes in base `base`, most significant first. */
  function ValueIn(base: nat, t: seq<Byte>): nat
    requires AllHex(t)
  {
    if |t| == 0 then 0 else ValueIn(base, t[..|t| - 1]) * base + HexCharValue(t[|t| - 1])
  }

  function Pow(base: nat, k: nat): (p: nat)
    ensures base > 0 ==> p > 0
  {
    if k == 0 then 1 else base * Pow(base, k - 1)
  }

  // ---------------------------------------------------------------------
  // Reference definitions
  // ---------------------------------------------------------------------

  /** The hex digits of `v` without leading zeros (none for 0). */
  function HexDigits(v: nat): (t: seq<Byte>)
    decreases v
    ensures AllHex(t)
    ensures |t| == 0 <==> v == 0
    ensures |t| > 0 ==> t[0] != DIGIT_ZERO
  {
    if v == 0 then [] else HexDigits(v / 16) + [HexDigit(v % 16)]
  }

  /** The decimal digits of `v` without leading zeros (none for 0). */
  function DecDigits(v: nat): (t: seq<Byte>)
    decreases v
    ensures AllDec(t)
    ensures |t| == 0 <==> v == 0
    ensures |t| > 0 ==> t[0] != DIGIT_ZERO
  {
    if v == 0 then [] else DecDigits(v / 10) + [DecDigit(v % 10)]
  }

  /** The hex digits of a value read back as that value. */
  lemma {:induction false} HexDigitsRoundTrip(v: nat)
    decreases v
    ensures ValueIn(16, HexDigits(v)) == v
  {
    if v > 0 {
      var t := HexDigits(v);
      assert t[..|t| - 1] == HexDigits(v / 16);
      HexDigitsRoundTrip(v / 16);
    }
  }

  /** The decimal digits of a value read back as that value. */
  lemma {:induction false} DecDigitsRoundTrip(v: nat)
    decreases v
    ensures ValueIn(10, DecDigits(v)) == v
  {
    if v > 0 {
      var t := DecDigits(v);
      assert t[..|t| - 1] == DecDigits(v / 10);
      DecDigitsRoundTrip(v / 10);
    }
  }

  /** A value below 16^k has at most k hex digits. */
  lemma {:induction false} HexDigitsLength(v: nat, k: nat)
    requires v < Pow(16, k)
    decreases v
    ensures |HexDigits(v)| <= k
  {
    if v > 0 {
      assert k > 0;
      HexDigitsLength(v / 16, k - 1);
    }
  }

  /** A value below 10^k has at most k decimal digits. */
  lemma {:induction false} DecDigitsLength(v: nat, k: nat)
    requires v < Pow(10, k)
    decreases v
    ensures |DecDigits(v)| <= k
  {
    if v > 0 {
      assert k > 0;
      DecDigitsLength(v / 10, k - 1);
    }
  }

  /** What `vga_write_hex` prints: "0x" and between one and eight upper-case
      hex digits; the only digit string that starts with '0' is the single "0"
      of zero. */
  function HexText(v: nat): (t: seq<Byte>)
    requires v < UINT32_LIMIT
    ensures 3 <= |t| <= 10 && t[..2] == [DIGIT_ZERO, LOWER_X]
    ensures AllHex(t[2..])
    ensures t[2] == DIGIT_ZERO <==> v == 0
    ensures t[2] == DIGIT_ZERO ==> |t| == 3
  {
    var digits := if v == 0 then [DIGIT_ZERO] else HexDigits(v);
    HexLength(v);
    var t := [DIGIT_ZERO, LOWER_X] + digits;
    assert t[2..] == digits;
    t
  }

  /** A 32-bit value has at most eight hex digits. */
  lemma HexLength(v: nat)
    requires v < UINT32_LIMIT
    ensures |HexDigits(v)| <= 8
  {
    assert Pow(16, 8) == UINT32_LIMIT;
    HexDigitsLength(v, 8);
  }

  /** The digits after "0x" read back as the printed value. */
  lemma HexTextRoundTrip(v: nat)
    requires v < UINT32_LIMIT
    ensures ValueIn(16, HexText(v)[2..]) == v
  {
    HexDigitsRoundTrip(v);
    var t := HexText(v);
    if v == 0 {
      assert t[2..] == [DIGIT_ZERO];
      assert [DIGIT_ZERO][..0] == [];
    } else {
      assert t[2..] == HexDigits(v);
    }
  }

  /** The magnitude of an integer. */
  function Abs(v: int): nat {
    if v < 0 then -v else v
  }

  /** Reads back a decimal text: an optional '-' and then digits. */
  function ParseDec(t: seq<Byte>): int
    requires |t| > 0 && (t[0] == MINUS ==> AllHex(t[1..])) && (t[0] != MINUS ==> AllHex(t))
  {
    if t[0] == MINUS then -(ValueIn(10, t[1..]) as int) else ValueIn(10, t)
  }

  /** What `vga_write_dec` prints: "0" for zero; otherwise '-' exactly for a
      negative value, then the digits of its magnitude with no leading zero,
      at most ten of them. */
  function DecText(v: int): (t: seq<Byte>)
    requires INT32_MIN <= v <= INT32_MAX
    ensures 1 <= |t| <= 11
    ensures t[0] == MINUS <==> v < 0
    ensures t[0] == MINUS ==> |t| >= 2 && AllDec(t[1..]) && t[1] != DIGIT_ZERO
    ensures t[0] != MINUS ==> AllDec(t) && (t[0] == DIGIT_ZERO <==> v == 0)
    ensures v == 0 ==> t == [DIGIT_ZERO]
  {
    DecLength(Abs(v));
    if v == 0 then [DIGIT_ZERO]
    else if v < 0 then
      var t := [MINUS] + DecDigits(-v);
      assert t[1..] == DecDigits(-v);
      t
    else DecDigits(v)
  }

  /** A 32-bit signed magnitude has at most ten decimal digits. */
  lemma DecLength(v: nat)
    requires v <= -INT32_MIN
    ensures |DecDigits(v)| <= 10
  {
    assert Pow(10, 10) == 10_000_000_000;
    DecDigitsLength(v, 10);
  }

  /** A non-zero value's text is its sign and the digits of its magnitude. */
  lemma DecTextOfDigits(v: int)
    requires INT32_MIN <= v <= INT32_MAX && v != 0
    ensures DecText(v) == (if v < 0 then [MINUS] else []) + DecDigits(Abs(v))
  {
  }

  /** The decimal text reads back as the printed value. */
  lemma DecTextRoundTrip(v: int)
    requires INT32_MIN <= v <= INT32_MAX
    ensures var t := DecText(v);
      ParseDec(t) == v
  {
    var t := DecText(v);
    DecDigitsRoundTrip(Abs(v));
    if v == 0 {
      assert [DIGIT_ZERO][..0] == [];
    } else if v < 0 {
      assert t[1..] == DecDigits(-v);
    }
  }

  // ---------------------------------------------------------------------
  // The driver's loops
  // ---------------------------------------------------------------------

  /** `v >> 4*i`: the value with its lowest `i` nibbles shifted out. */
  function ShiftNibbles(v: nat, i: nat): nat {
    if i == 0 then v else ShiftNibbles(v, i - 1) / 16
  }

  /** Shifting out `j` nibbles of a value below 16^k leaves a value below 16^(k-j). */
  lemma {:induction false} ShiftBelow(v: nat, k: nat, j: nat)
    requires v < Pow(16, k) && j <= k
    decreases j
    ensures ShiftNibbles(v, j) < Pow(16, k - j)
  {
    if j > 0 {
      ShiftBelow(v, k, j - 1);
      assert Pow(16, k - j + 1) == 16 * Pow(16, k - j);
    }
  }

  /** Shifting a 32-bit value right by 32 bits leaves nothing. */
  lemma ShiftOutAll(v: nat)
    requires v < UINT32_LIMIT
    ensures ShiftNibbles(v, 8) == 0
  {
    assert Pow(16, 8) == UINT32_LIMIT;
    ShiftBelow(v, 8, 8);
  }

  /** `vga_write_hex` as written: "0x", then the eight nibbles
      `(value >> 4*i) & 0xF` from i = 7 down to 0, skipping zero nibbles until
      the first non-zero one or the last nibble. */
  method WriteHexLoop(value: nat) returns (out: seq<Byte>)
    requires value < UINT32_LIMIT
    ensures out == HexText(value)
  {
    ShiftOutAll(value);
    HexTextOfDigits(value);
    out := [DIGIT_ZERO, LOWER_X];
    var started := false;
    var i: int := 7;
    while i >= 0
      invariant -1 <= i <= 7
      invariant i >= 0 ==> (started <==> ShiftNibbles(value, i + 1) > 0)
      invariant i >= 0 ==> out == [DIGIT_ZERO, LOWER_X] + HexDigits(ShiftNibbles(value, i + 1))
      invariant i < 0 ==> out == HexText(value)
      decreases i + 1
    {
      var nibble := ShiftNibbles(value, i) % 16;
      ghost var q := ShiftNibbles(value, i);
      assert ShiftNibbles(value, i + 1) == q / 16;
      if !started && nibble == 0 && i != 0 {
        i := i - 1;
        continue;
      }
      started := true;
      out := out + [HexDigit(nibble)];
      if q == 0 {
        assert out == [DIGIT_ZERO, LOWER_X] + [DIGIT_ZERO];
      } else {
        assert out == [DIGIT_ZERO, LOWER_X] + HexDigits(q);
      }
      i := i - 1;
    }
  }

  /** The hex text is "0x" and either the single digit '0' or the value's digits. */
  lemma HexTextOfDigits(v: nat)
    requires v < UINT32_LIMIT
    ensures HexText(v) == [DIGIT_ZERO, LOWER_X] + (if v == 0 then [DIGIT_ZERO] else HexDigits(v))
  {
  }

  /** The digits written into the buffer least significant first, in the
      order the second loop prints them. */
  function Reverse(t: seq<Byte>): (r: seq<Byte>)
    ensures |r| == |t|
  {
    if |t| == 0 then [] else Reverse(t[1..]) + [t[0]]
  }

  lemma {:induction false} ReverseAppend(t: seq<Byte>, x: Byte)
    ensures Reverse(t + [x]) == [x] + Reverse(t)
  {
    if |t| > 0 {
      assert (t + [x])[1..] == t[1..] + [x];
      ReverseAppend(t[1..], x);
    } else {
      assert t + [x] == [x];
    }
  }

  /** The first loop of `vga_write_dec`: the digits of a positive value,
      least significant first, into the 12-byte buffer while the value is
      positive and the buffer has room. Read back to front they are the
      value's digits; the buffer never fills, since a 32-bit signed magnitude
      has at most ten digits. */
  method FillDigitBuffer(v: nat) returns (buf: seq<Byte>)
    requires v <= -INT32_MIN
    ensures Reverse(buf) == DecDigits(v)
    ensures |buf| <= 10 < DEC_BUFFER
  {
    DecLength(v);
    buf := [];
    var n: nat := v;
    while n > 0 && |buf| < DEC_BUFFER
      invariant DecDigits(v) == DecDigits(n) + Reverse(buf)
      decreases n
    {
      var d := n % 10;
      assert DecDigits(n) == DecDigits(n / 10) + [DecDigit(d)];
      ReverseAppend(buf, DecDigit(d));
      buf := buf + [DecDigit(d)];
      n := n / 10;
    }
  }

  /** The second loop of `vga_write_dec`: the buffer printed from its last
      byte down to its first, after what was already printed. */
  method EmitBackwards(prefix: seq<Byte>, buf: seq<Byte>) returns (out: seq<Byte>)
    ensures out == prefix + Reverse(buf)
  {
    out := prefix;
    var i := |buf|;
    while i > 0
      invariant 0 <= i <= |buf|
      invariant out == prefix + Reverse(buf[i..])
    {
      assert buf[i - 1..][1..] == buf[i..];
      i := i - 1;
      out := out + [buf[i]];
    }
    assert buf[0..] == buf;
  }

  /** `vga_write_dec` with the negation done without overflow: "0" for zero;
      otherwise '-' for a negative value, which is then negated, then the digit
      buffer filled and printed back to front. */
  method WriteDecLoop(value: int) returns (out: seq<Byte>)
    requires INT32_MIN <= value <= INT32_MAX
    ensures out == DecText(value)
  {
    if value == 0 {
      out := [DIGIT_ZERO];
      return;
    }
    out := [];
    var v := value;
    if v < 0 {
      out := [MINUS];
      v := -v;
    }
    var buf := FillDigitBuffer(v);
    out := EmitBackwards(out, buf);
    DecTextOfDigits(value);
  }

  // ---------------------------------------------------------------------
  // The negation as written
  // ---------------------------------------------------------------------

  /** `-value` on a 32-bit two's-complement integer: the negation of INT32_MIN
      does not fit and wraps back to INT32_MIN. */
  function Negate32(v: int): (r: int)
    requires INT32_MIN <= v <= INT32_MAX
    ensures INT32_MIN <= r <= INT32_MAX
    ensures v != INT32_MIN ==> r + v == 0
    ensures (r + v) % 0x1_0000_0000 == 0
  {
    if v == INT32_MIN then v else -v
  }

  /** What `vga_write_dec` prints when its negation wraps: "0" for zero;
      otherwise '-' for a negative value, then the digits of the negated value
      for as long as it is positive. */
  method WriteDecWrapped(value: int) returns (out: seq<Byte>)
    requires INT32_MIN <= value <= INT32_MAX
    ensures value != INT32_MIN ==> out == DecText(value)
    ensures value == INT32_MIN ==> out == [MINUS]
  {
    if value == 0 {
      out := [DIGIT_ZERO];
      return;
    }
    out := [];
    var v := value;
    if v < 0 {
      out := [MINUS];
      v := Negate32(v);
    }
    var buf := [];
    if v > 0 {
      buf := FillDigitBuffer(v);
    }
    out := EmitBackwards(out, buf);
    if value != INT32_MIN {
      DecTextOfDigits(value);
    }
  }

  /** The wrapped printer's output for INT32_MIN, a lone '-', reads back as 0
      and is not the value's decimal text, which reads back as INT32_MIN. */
  lemma WrappedMinIsNotItsText()
    ensures ParseDec([MINUS]) == 0
    ensures DecText(INT32_MIN) != [MINUS]
    ensures ParseDec(DecText(INT32_MIN)) == INT32_MIN
  {
    DecTextRoundTrip(INT32_MIN);
  }

  // ---------------------------------------------------------------------
  // On the console
  // ---------------------------------------------------------------------

  /** Prints an unsigned 32-bit value in hex at the cursor. With room left on
      the row, the text is drawn at the cursor in the active attribute and the
      cursor moves past it, on the same row. */
  function WriteHex(s: Console, value: nat): (r: Console)
    requires Valid(s) && value < UINT32_LIMIT
    ensures Valid(r) && r.color == s.color
    ensures s.col + |HexText(value)| < WIDTH ==>
      r.row == s.row && r.col == s.col + |HexText(value)|
      && r.grid == Written(s.grid, Offset(s.row, s.col), HexText(value), s.color)
  {
    var t := HexText(value);
    assert AllPrintable(t) by {
      forall i | 0 <= i < |t|
        ensures t[i] >= SPACE
      {
        if i >= 2 {
          assert t[i] == t[2..][i - 2];
        }
      }
    }
    PutEachPrintable(s, t);
    if s.col + |t| <= WIDTH then
      PutRunDraws(s, t);
      PutEach(s, t)
    else
      PutEach(s, t)
  }

  /** Prints a signed 32-bit value in decimal at the cursor. With room left on
      the row, the text is drawn at the cursor in the active attribute and the
      cursor moves past it, on the same row. */
  function WriteDec(s: Console, value: int): (r: Console)
    requires Valid(s) && INT32_MIN <= value <= INT32_MAX
    ensures Valid(r) && r.color == s.color
    ensures s.col + |DecText(value)| < WIDTH ==>
      r.row == s.row && r.col == s.col + |DecText(value)|
      && r.grid == Written(s.grid, Offset(s.row, s.col), DecText(value), s.color)
  {
    var t := DecText(value);
    assert AllPrintable(t) by {
      forall i | 0 <= i < |t|
        ensures t[i] >= SPACE
      {
        if i >= 1 && t[0] == MINUS {
          assert t[i] == t[1..][i - 1];
        }
      }
    }
    PutEachPrintable(s, t);
    if s.col + |t| <= WIDTH then
      PutRunDraws(s, t);
      PutEach(s, t)
    else
      PutEach(s, t)
  }
}
